=== FILE: README.md ===
# Twitter bot: verified model of the publish step

The bot republishes rows of a MySQL `comments` table as tweets. Each run
(`main` in `twitter_bot.py`):

1. reads the id of the last fetched row from the cursor file
   `last_entry_fetched_ID.txt`. A missing file means 0, and the file is
   created holding `"0"`.
2. selects the row with the smallest id above that cursor and at once
   overwrites the cursor file with that row's id.
3. when the row's text is non-empty, splits it greedily on whitespace into
   chunks. A chunk of two or more words is at most 280 characters long. A
   single word longer than that forms a longer chunk on its own, and a first
   word of 280 characters or more is preceded by an empty chunk `""`.
4. posts every chunk, in order, if fewer than 50 tweets were made in the last
   24 hours; otherwise it posts none.

This project models that step in Dafny and proves what each part promises.
The modules follow the parts of the script:

- `Text` (`text.dfy`): Python's whitespace (`str.isspace`), `str.split()`,
  `str.strip()` and the single-space join. It also proves the round trip
  `Words(Join(ws)) == ws`.
- `Chunker` (`chunker.dfy`): `split_data_into_chunks`. It is an imperative
  method with a loop, proved equal to the greedy packing `Chunks`. Lemmas
  state word preservation, single spacing, the length bound, greedy
  closing, and the leading empty-chunk quirk.
- `Decimal` (`decimal.dfy`): the cursor file format. `str(id)` is written and
  `int(text.strip())` is read, with the round trip proved for every
  integer.
- `Cursor` (`cursor.dfy`): the `LIMIT 1` query as `NextRow`, and the cursor
  file as a class whose `FetchNextEntry` method reads, creates and
  overwrites it. `FetchRuns` repeats the fetch against one table, and
  lemmas cover what successive runs fetch: strictly increasing ids, and no
  id skipped.
- `Quota` (`quota.dfy`): recent-tweet count, time until the quota resets, and
  `tweet_chunks` as a method that appends to the account's `posted` log.
- `Bot` (`bot.dfy`): `main` as `RunOnce`.

The database is a sequence of `Row(id, text)`. The platform is two things:
the creation times its timeline reports (integer seconds) and a `posted`
log. The clock is a parameter `now`.

The model follows the code, including these behaviours:

- The cursor is written when the row is fetched, before any posting.
  So a row whose posting is blocked by the quota, or whose text is empty,
  is consumed and never retried. This is at-most-once delivery, not
  at-least-once.
- A cursor file that is empty or not an integer makes `int(...)` raise
  instead of counting as 0. The model returns `UnreadableCursor`, leaves the
  file as it is, and posts nothing.
- One row is handled per run.
- There is no retry or backoff, no text normalisation and no persisted
  quota window.
- `calculate_time_until_post_limit_reset` is defined but never called by
  `main`. It is modelled on its own.

## Model

| member | source | states |
|---|---|---|
| `Text.WordsAreWords` | twitter_bot.py:56 | every word `split()` returns is non-empty and holds no whitespace |
| `Text.WordsEmpty` | twitter_bot.py:56 | `split()` returns no word exactly when the text is empty or all whitespace |
| `Text.WordsOfJoin` | twitter_bot.py:64-66 | splitting words joined by single spaces gives back exactly those words |
| `Text.Strip` | twitter_bot.py:39 | the result is one slice of the text with only whitespace before and after it; it neither starts nor ends with whitespace, and text that already does neither is unchanged |
| `Text.StripPadded` | twitter_bot.py:39 | stripping whitespace padding from both sides of a non-empty text without whitespace at its ends gives that text back |
| `Chunker.SplitDataIntoChunks` | twitter_bot.py:55-69 | the loop's result is exactly the greedy packing `Chunks(data, chunkSize)` of `data.split()` |
| `Chunker.ChunksPreserveWords` | twitter_bot.py:56-68 | the words of the chunks, read in order, are exactly `data.split()`: none dropped, duplicated, reordered or truncated |
| `Chunker.ChunksSingleSpaced` | twitter_bot.py:63-66 | every chunk is its words joined by single spaces; a non-empty chunk has no leading or trailing whitespace |
| `Chunker.ChunksWithinLimit` | twitter_bot.py:60-66 | a chunk of two or more words has length at most `chunk_size`; a non-empty chunk longer than that is one whole word standing alone |
| `Chunker.ChunksGreedy` | twitter_bot.py:60-62 | every chunk but the last was closed only because the next chunk's first word, with its `+1` space, would push it past `chunk_size` (`Greedy`) |
| `Chunker.ChunksEmptyChunk` | twitter_bot.py:58-62 | `""` is among the chunks exactly when the first word has length at least `chunk_size`, and then only at index 0 |
| `Chunker.ChunksNone` | twitter_bot.py:56-69 | no chunk is produced exactly when the text is empty or whitespace only |
| `Decimal.ParseInt` | twitter_bot.py:39 | `int()` applied to already stripped text yields a value only for text starting with a digit or sign, and a negative value only after `-` |
| `Decimal.CursorRoundTrip` | twitter_bot.py:36-51 | reading back with `int(s.strip())` what `str(id)` wrote gives the same id, for every integer id |
| `Decimal.CursorPaddedRoundTrip` | twitter_bot.py:39 | a cursor file holding `str(id)` with any whitespace around it, such as a trailing newline, reads back as `id` |
| `Decimal.BlankIsNotANumber` | twitter_bot.py:39 | an empty or whitespace-only cursor file does not parse, so the read fails |
| `Cursor.NextRow` | twitter_bot.py:44-46 | the selected row is in the table and has the smallest id above the cursor; there is none exactly when no id exceeds the cursor |
| `Cursor.CursorFile.FetchNextEntry` | twitter_bot.py:35-53 | missing file: cursor 0, file created holding "0". Next row found: its text is returned and the file holds `str(id)`, which reads back as `id` above the old cursor. No row: nothing is returned and the cursor is unchanged. Unreadable file: failure, file unchanged |
| `Cursor.FetchesIncrease` | twitter_bot.py:44-51 | successive runs fetch rows of the table above the starting cursor, in strictly increasing id order, so none twice |
| `Cursor.FetchRuns` | twitter_bot.py:35-53 | runs repeated against one table, each reading the cursor file the previous run wrote, return the texts of `Fetches` in order and leave the file at the last fetched id; an unreadable file stays as it is and yields nothing |
| `Cursor.FetchesSkipNothing` | twitter_bot.py:44-51 | successive runs skip no id: the id of every row between the starting cursor and the last fetched id is the id of a fetched row. Since fetched ids strictly increase (`Cursor.FetchesIncrease`), only one row per id is ever fetched |
| `Quota.Recent` | twitter_bot.py:75 | the recent times are the timeline times strictly after `now - 86400` and no others; all are kept iff every time is that recent, none iff no time is |
| `Quota.RecentOccurrences` | twitter_bot.py:75 | each time strictly after `now - 86400` is kept as often as the timeline holds it, and no other time is kept |
| `Quota.RecentCount` | twitter_bot.py:75-76 | the number of recent times equals the number of timeline positions holding a time strictly after `now - 86400` |
| `Quota.TweetsMadeInLast24Hours` | twitter_bot.py:71-76 | the count is the number of timeline positions holding a time strictly after `now - 86400`; so it is at most the timeline length, 0 iff no time is that recent, and the full length iff all are |
| `Quota.Oldest` | twitter_bot.py:84 | the minimum is an element and no element is smaller |
| `Quota.TimeUntilPostLimitReset` | twitter_bot.py:78-87 | 0 with no recent tweet; otherwise the oldest recent time plus 86400 minus `now`, which is positive, and at most 86400 when no time lies after `now` |
| `Quota.Account.TweetChunks` | twitter_bot.py:89-96 | all chunks are posted in order when fewer than 50 tweets are recent, otherwise nothing is posted |
| `Bot.RunOnce` | twitter_bot.py:98-108 | the cursor file is overwritten with `str(id)` of the fetched row, so the cursor moves to that id, whether or not anything is posted; that row's chunks are posted only if its text is non-empty and the quota allows; with no new row the file holds what it held, or `"0"` when it was missing, and nothing is posted; with an unreadable cursor the file is untouched and nothing is posted |

## Left out

- Tweepy authentication and the API calls are not modelled. The timeline
  that `user_timeline(count=100)` returns is a parameter of creation times.
  Posting appends to `Account.posted` and always succeeds, so a rejected
  status (such as the empty first chunk) or a network error is not modelled.
- The MySQL connection, configuration from environment variables, the latin1
  charset and the SQL text are not modelled. The table is a sequence of rows,
  and a NULL text column is not represented.
- `time.sleep(2)` and the `print` diagnostics are not modelled. They have no
  logical effect.
- `datetime.utcnow()` becomes the parameter `now`. Timestamps are whole
  seconds, not datetimes, so `total_seconds()` gives no fractional part.
  The two quota functions each read the clock and the timeline separately,
  and here each takes its own.
- `Decimal.ParseInt` accepts ASCII digits only. Python's `int()` also accepts
  other Unicode decimal digits. It also does not skip surrounding whitespace as
  `int()` does; the cursor is always stripped first, so the cursor read is unaffected.
- `Cursor.NextRow`: among rows that share the least id above the cursor, SQL's
  `ORDER BY id ASC LIMIT 1` may return any one. The function takes the first in
  sequence order, but its contract promises only some row with that id.
- File-system errors (permissions, I/O failures) are not modelled. The only
  failure modelled is an unparsable cursor.
- check_file_permissions.py is not part of this model. It only probes and
  reports on the file system, for a different file name.

=== FILE: bot.dfy ===
/**
  `main`: one run of the bot. It fetches the next row (advancing the cursor
  file at once), and when the row's text is non-empty, splits it into chunks
  and posts them subject to the quota.
 */
module Bot {
  import opened Wrappers
  import opened Cursor
  import opened Chunker
  import opened Quota
  import opened Decimal

  /** One run against the table `rows`, with `timeline` the creation times the
      platform reports at time `now`. A row is consumed as soon as it is
      fetched: when the quota blocks it, or its text is empty, nothing is
      posted and the cursor still moves past it. */
  method RunOnce(file: CursorFile, account: Account, rows: seq<Row>, timeline: seq<int>, now: int)
    modifies file, account
    ensures old(file.StoredCursor()).None? ==>
      file.present == old(file.present) && file.contents == old(file.contents) &&
      account.posted == old(account.posted)
    ensures old(file.StoredCursor()).Some? && NextRow(rows, old(file.StoredCursor()).value).None? ==>
      file.present && file.contents == (if old(file.present) then old(file.contents) else "0") &&
      file.StoredCursor() == old(file.StoredCursor()) && account.posted == old(account.posted)
    ensures old(file.StoredCursor()).Some? && NextRow(rows, old(file.StoredCursor()).value).Some? ==>
      var row := NextRow(rows, old(file.StoredCursor()).value).value;
      file.present && file.contents == IntToString(row.id) &&
      file.StoredCursor() == Some(row.id) && row.id > old(file.StoredCursor()).value &&
      account.posted == old(account.posted) +
        (if row.text != "" && TweetsMadeInLast24Hours(timeline, now) < PostLimit
         then Chunks(row.text, DefaultChunkSize) else [])
  {
    var data := file.FetchNextEntry(rows);
    ghost var fetchedFile := file.StoredCursor();
    if data.Entry? && data.text != "" {
      var chunks := SplitDataIntoChunks(data.text, DefaultChunkSize);
      account.TweetChunks(chunks, timeline, now);
    }
    assert file.StoredCursor() == fetchedFile;
  }
}

=== FILE: chunker.dfy ===
/**
  `split_data_into_chunks`: the text of one database row is split on
  whitespace and its words are packed greedily into chunks, separated by
  single spaces. A chunk of two or more words is at most `chunk_size`
  characters long; a single word longer than that forms a longer chunk on
  its own.

  Two quirks of the code are kept: the overflow test always counts one
  separating space, even for the first word of a chunk, and a first word
  of length `chunk_size` or more closes the still empty chunk, so the
  result then starts with an empty chunk "".
 */
module Chunker {
  import opened Text

  /** The default `chunk_size` of `split_data_into_chunks`, the one `main` uses. */
  const DefaultChunkSize := 280

  /** `chunk` with `word` added, a space going between them unless `chunk` is empty. */
  function Extend(chunk: string, word: string): string {
    if chunk != "" then chunk + " " + word else word
  }

  /** The chunks still to be emitted when the current chunk is `chunk` and
      `ws` are the words not yet visited by the loop. */
  function Pack(ws: seq<string>, chunk: string, size: int): seq<string>
    decreases |ws|
  {
    if ws == [] then (if chunk != "" then [chunk] else [])
    else if |chunk| + |ws[0]| + 1 > size then [chunk] + Pack(ws[1..], ws[0], size)
    else Pack(ws[1..], Extend(chunk, ws[0]), size)
  }

  /** The result of `split_data_into_chunks(data, size)`. */
  function Chunks(data: string, size: int): seq<string> {
    Pack(Words(data), "", size)
  }

  /** The words of a list of chunks, read chunk after chunk. */
  function ChunkWords(cs: seq<string>): seq<string> {
    if cs == [] then [] else Words(cs[0]) + ChunkWords(cs[1..])
  }

  method SplitDataIntoChunks(data: string, chunkSize: int) returns (chunks: seq<string>)
    ensures chunks == Chunks(data, chunkSize)
  {
    var words := Words(data);
    chunks := [];
    var chunk := "";
    var i := 0;
    while i < |words|
      invariant 0 <= i <= |words|
      invariant chunks + Pack(words[i..], chunk, chunkSize) == Chunks(data, chunkSize)
    {
      var word := words[i];
      assert words[i..][1..] == words[i + 1..];
      if |chunk| + |word| + 1 > chunkSize {
        assert Pack(words[i..], chunk, chunkSize) == [chunk] + Pack(words[i + 1..], word, chunkSize);
        chunks := chunks + [chunk];
        chunk := word;
      } else {
        ghost var extended := Extend(chunk, word);
        assert Pack(words[i..], chunk, chunkSize) == Pack(words[i + 1..], extended, chunkSize);
        if chunk != "" {
          chunk := chunk + " ";
        }
        chunk := chunk + word;
        assert chunk == extended;
      }
      i := i + 1;
    }
    if chunk != "" {
      chunks := chunks + [chunk];
    }
  }

  // ---------------------------------------------------------------------
  // Properties of the packing, for an arbitrary current chunk Join(g)

  lemma {:induction false} PackWords(ws: seq<string>, g: seq<string>, size: int)
    requires AllWords(ws) && AllWords(g)
    ensures ChunkWords(Pack(ws, Join(g), size)) == g + ws
    decreases |ws|
  {
    if ws == [] {
      if g != [] {
        JoinSnoc(g[..|g| - 1], g[|g| - 1]);
        assert g[..|g| - 1] + [g[|g| - 1]] == g;
        WordsOfJoin(g);
        assert ChunkWords([Join(g)]) == Words(Join(g)) + ChunkWords([]);
      }
    } else if |Join(g)| + |ws[0]| + 1 > size {
      JoinSingle(ws[0]);
      PackWords(ws[1..], [ws[0]], size);
      WordsOfJoin(g);
      var rest := Pack(ws[1..], ws[0], size);
      assert ([Join(g)] + rest)[1..] == rest;
      assert ws == [ws[0]] + ws[1..];
    } else {
      JoinSnoc(g, ws[0]);
      PackWords(ws[1..], g + [ws[0]], size);
      assert g + [ws[0]] + ws[1..] == g + ws;
    }
  }

  lemma {:induction false} PackJoined(ws: seq<string>, g: seq<string>, size: int)
    requires AllWords(ws) && AllWords(g)
    ensures forall c :: c in Pack(ws, Join(g), size) ==> c == Join(Words(c))
    decreases |ws|
  {
    WordsOfJoin(g);
    if ws == [] {
    } else if |Join(g)| + |ws[0]| + 1 > size {
      JoinSingle(ws[0]);
      PackJoined(ws[1..], [ws[0]], size);
      assert Pack(ws, Join(g), size) == [Join(g)] + Pack(ws[1..], Join([ws[0]]), size);
    } else {
      JoinSnoc(g, ws[0]);
      PackJoined(ws[1..], g + [ws[0]], size);
      assert Pack(ws, Join(g), size) == Pack(ws[1..], Join(g + [ws[0]]), size);
    }
  }

  lemma {:induction false} PackBound(ws: seq<string>, g: seq<string>, size: int)
    requires AllWords(ws) && AllWords(g)
    requires |g| >= 2 ==> |Join(g)| <= size
    ensures forall c :: c in Pack(ws, Join(g), size) && |Words(c)| >= 2 ==> |c| <= size
    decreases |ws|
  {
    WordsOfJoin(g);
    if ws == [] {
    } else if |Join(g)| + |ws[0]| + 1 > size {
      JoinSingle(ws[0]);
      PackBound(ws[1..], [ws[0]], size);
      assert Pack(ws, Join(g), size) == [Join(g)] + Pack(ws[1..], Join([ws[0]]), size);
    } else {
      var g' := g + [ws[0]];
      JoinSnoc(g, ws[0]);
      assert |g'| >= 2 ==> |Join(g')| == |Join(g)| + 1 + |ws[0]|;
      PackBound(ws[1..], g', size);
      assert Pack(ws, Join(g), size) == Pack(ws[1..], Join(g'), size);
    }
  }

  /** The first chunk emitted from a non-empty current chunk starts with its first word. */
  lemma {:induction false} PackHead(ws: seq<string>, g: seq<string>, size: int)
    requires AllWords(ws) && AllWords(g) && g != []
    ensures |Pack(ws, Join(g), size)| > 0
    ensures |Words(Pack(ws, Join(g), size)[0])| > 0 && Words(Pack(ws, Join(g), size)[0])[0] == g[0]
    decreases |ws|
  {
    JoinEnds(g);
    WordsOfJoin(g);
    if ws != [] && |Join(g)| + |ws[0]| + 1 <= size {
      JoinSnoc(g, ws[0]);
      PackHead(ws[1..], g + [ws[0]], size);
    }
  }

  /** `next` could not have joined `chunk`: its first word, with the
      separating space, would push `chunk` past `size`. */
  ghost predicate ClosedBefore(chunk: string, next: string, size: int) {
    |Words(next)| > 0 && |chunk| + 1 + |Words(next)[0]| > size
  }

  /** Every chunk but the last was closed by the word that starts the next. */
  ghost predicate Greedy(cs: seq<string>, size: int) {
    forall i, j :: 0 <= i && j == i + 1 && j < |cs| ==> ClosedBefore(cs[i], cs[j], size)
  }

  lemma GreedyCons(c: string, rest: seq<string>, size: int)
    requires Greedy(rest, size)
    requires rest != [] ==> ClosedBefore(c, rest[0], size)
    ensures Greedy([c] + rest, size)
  {
    var r := [c] + rest;
    forall i, j | 0 <= i && j == i + 1 && j < |r|
      ensures ClosedBefore(r[i], r[j], size)
    {
      if i > 0 {
        assert r[i] == rest[i - 1] && r[j] == rest[j - 1];
      }
    }
  }

  lemma {:induction false} PackGreedy(ws: seq<string>, g: seq<string>, size: int)
    requires AllWords(ws) && AllWords(g)
    ensures Greedy(Pack(ws, Join(g), size), size)
    decreases |ws|
  {
    if ws == [] {
    } else if |Join(g)| + |ws[0]| + 1 > size {
      JoinSingle(ws[0]);
      var rest := Pack(ws[1..], Join([ws[0]]), size);
      assert Pack(ws, Join(g), size) == [Join(g)] + rest;
      PackGreedy(ws[1..], [ws[0]], size);
      PackHead(ws[1..], [ws[0]], size);
      GreedyCons(Join(g), rest, size);
    } else {
      JoinSnoc(g, ws[0]);
      PackGreedy(ws[1..], g + [ws[0]], size);
    }
  }

  lemma {:induction false} PackNonEmpty(ws: seq<string>, g: seq<string>, size: int)
    requires AllWords(ws) && AllWords(g) && g != []
    ensures "" !in Pack(ws, Join(g), size)
    decreases |ws|
  {
    JoinEnds(g);
    if ws == [] {
    } else if |Join(g)| + |ws[0]| + 1 > size {
      JoinSingle(ws[0]);
      PackNonEmpty(ws[1..], [ws[0]], size);
      assert Pack(ws, Join(g), size) == [Join(g)] + Pack(ws[1..], Join([ws[0]]), size);
    } else {
      JoinSnoc(g, ws[0]);
      PackNonEmpty(ws[1..], g + [ws[0]], size);
    }
  }

  // ---------------------------------------------------------------------
  // What split_data_into_chunks promises

  /** No word is dropped, duplicated, reordered or altered: the words of the
      chunks, read in order, are exactly `data.split()`. */
  lemma ChunksPreserveWords(data: string, size: int)
    ensures ChunkWords(Chunks(data, size)) == Words(data)
  {
    WordsAreWords(data);
    PackWords(Words(data), [], size);
  }

  /** Every chunk is its words joined by single spaces; a non-empty chunk
      neither starts nor ends with whitespace. */
  lemma ChunksSingleSpaced(data: string, size: int)
    ensures forall c :: c in Chunks(data, size) ==> c == Join(Words(c))
    ensures forall c :: c in Chunks(data, size) && c != "" ==>
      !IsWhitespace(c[0]) && !IsWhitespace(c[|c| - 1])
  {
    assert Join([]) == "";
    WordsAreWords(data);
    PackJoined(Words(data), [], size);
    forall c | c in Chunks(data, size) && c != ""
      ensures !IsWhitespace(c[0]) && !IsWhitespace(c[|c| - 1])
    {
      var ws := Words(c);
      WordsAreWords(c);
      JoinEnds(ws);
      assert c[0] == Join(ws)[..|ws[0]|][0] == ws[0][0];
      assert c[|c| - 1] == ws[|ws| - 1][|ws[|ws| - 1]| - 1];
    }
  }

  /** A chunk of two words or more fits within the limit; a chunk longer than
      the limit is a single word, kept whole. */
  lemma ChunksWithinLimit(data: string, size: int)
    ensures forall c :: c in Chunks(data, size) && |Words(c)| >= 2 ==> |c| <= size
    ensures forall c :: c in Chunks(data, size) && c != "" && |c| > size ==> Words(c) == [c]
  {
    assert Join([]) == "";
    WordsAreWords(data);
    PackBound(Words(data), [], size);
    PackJoined(Words(data), [], size);
    forall c | c in Chunks(data, size) && c != "" && |c| > size
      ensures Words(c) == [c]
    {
      var ws := Words(c);
      assert |ws| == 1;
      JoinSingle(ws[0]);
    }
  }

  /** A chunk is closed only because the first word of the next chunk, with
      its separating space, would overflow it. */
  lemma ChunksGreedy(data: string, size: int)
    ensures Greedy(Chunks(data, size), size)
  {
    assert Join([]) == "";
    WordsAreWords(data);
    PackGreedy(Words(data), [], size);
  }

  /** The empty chunk "" appears exactly when the first word is at least
      `size` characters long, and then only at index 0. */
  lemma ChunksEmptyChunk(data: string, size: int)
    ensures "" in Chunks(data, size) <==> |Words(data)| > 0 && |Words(data)[0]| >= size
    ensures forall i :: 0 <= i < |Chunks(data, size)| && Chunks(data, size)[i] == "" ==> i == 0
  {
    var ws := Words(data);
    WordsAreWords(data);
    if ws != [] {
      JoinSingle(ws[0]);
      PackNonEmpty(ws[1..], [ws[0]], size);
      var rest := Pack(ws[1..], ws[0], size);
      if |ws[0]| >= size {
        assert Chunks(data, size) == [""] + rest;
        assert Chunks(data, size)[0] == "";
      } else {
        assert Chunks(data, size) == rest;
      }
    }
  }

  /** Empty or whitespace-only text gives no chunk at all, and only such text does. */
  lemma ChunksNone(data: string, size: int)
    ensures Chunks(data, size) == [] <==> forall i :: 0 <= i < |data| ==> IsWhitespace(data[i])
  {
    WordsEmpty(data);
    var ws := Words(data);
    WordsAreWords(data);
    if ws != [] {
      JoinSingle(ws[0]);
      PackNonEmpty(ws[1..], [ws[0]], size);
      PackHead(ws[1..], [ws[0]], size);
    }
  }
}

=== FILE: cursor.dfy ===
/**
  `fetch_next_database_entry_to_tweet`: the persisted cursor (the id of the
  last row fetched) selects the next row of the `comments` table, and is
  overwritten with that row's id as soon as the row is fetched.
 */
module Cursor {
  import opened Wrappers
  import opened Text
  import opened Decimal

  /** One row of the `comments` table. */
  datatype Row = Row(id: int, text: string)

  /** What one fetch yields: the text of the next row, no new row, or a cursor
      file whose contents `int(...)` cannot read (where Python raises). */
  datatype Fetched = Entry(text: string) | NoNewEntry | UnreadableCursor

  /** `SELECT id, text FROM comments WHERE id > cursor ORDER BY id ASC LIMIT 1`:
      the row with the smallest id above the cursor (the first in table order
      among rows sharing that id), or `None` when no id exceeds the cursor. */
  function NextRow(rows: seq<Row>, cursor: int): (r: Option<Row>)
    ensures r.Some? ==> r.value in rows && r.value.id > cursor
    ensures r.Some? ==> forall i :: 0 <= i < |rows| && rows[i].id > cursor ==> r.value.id <= rows[i].id
    ensures r.None? <==> forall i :: 0 <= i < |rows| ==> rows[i].id <= cursor
  {
    if rows == [] then None
    else
      var rest := NextRow(rows[1..], cursor);
      if rows[0].id > cursor && (rest.None? || rows[0].id <= rest.value.id) then Some(rows[0])
      else rest
  }

  /** The file `last_entry_fetched_ID.txt`: whether it exists, and its text. */
  class CursorFile {
    var present: bool
    var contents: string

    constructor (present: bool, contents: string)
      ensures this.present == present && this.contents == contents
    {
      this.present := present;
      this.contents := contents;
    }

    /** The cursor the file stands for: 0 when it is missing, `None` when its
        stripped text is not an integer. */
    function StoredCursor(): Option<int>
      reads this
    {
      if present then ParseInt(Strip(contents)) else Some(0)
    }

    /** Reads (or creates, holding "0") the cursor file, queries the next row
        above the cursor and, when there is one, overwrites the file with its
        id before returning its text. */
    method FetchNextEntry(rows: seq<Row>) returns (r: Fetched)
      modifies this
      ensures old(StoredCursor()).None? ==>
        r == UnreadableCursor && present == old(present) && contents == old(contents)
      ensures old(StoredCursor()).Some? && NextRow(rows, old(StoredCursor()).value).None? ==>
        r == NoNewEntry && present &&
        contents == (if old(present) then old(contents) else "0") &&
        StoredCursor() == old(StoredCursor())
      ensures old(StoredCursor()).Some? && NextRow(rows, old(StoredCursor()).value).Some? ==>
        var row := NextRow(rows, old(StoredCursor()).value).value;
        r == Entry(row.text) && present && contents == IntToString(row.id) &&
        StoredCursor() == Some(row.id) && row.id > old(StoredCursor()).value
    {
      var lastEntryFetched := 0;
      if present {
        var parsed := ParseInt(Strip(contents));
        if parsed.None? {
          return UnreadableCursor;
        }
        lastEntryFetched := parsed.value;
      } else {
        present, contents := true, "0";
        assert IntToString(0) == "0";
        CursorRoundTrip(0);
      }
      assert StoredCursor() == old(StoredCursor()) == Some(lastEntryFetched);
      var entry := NextRow(rows, lastEntryFetched);
      if entry.Some? {
        contents := IntToString(entry.value.id);
        CursorRoundTrip(entry.value.id);
        r := Entry(entry.value.text);
      } else {
        r := NoNewEntry;
      }
    }
  }

  /** The rows fetched by `runs` successive invocations that start from
      cursor `cursor` and see the same table. */
  function Fetches(rows: seq<Row>, cursor: int, runs: nat): seq<Row>
    decreases runs
  {
    if runs == 0 then []
    else match NextRow(rows, cursor)
      case None => []
      case Some(row) => [row] + Fetches(rows, row.id, runs - 1)
  }

  /** Successive runs fetch rows in strictly increasing id order, all above
      the starting cursor: no row is fetched twice, whether or not it was
      posted. */
  lemma {:induction false} FetchesIncrease(rows: seq<Row>, cursor: int, runs: nat)
    ensures forall i :: 0 <= i < |Fetches(rows, cursor, runs)| ==>
      Fetches(rows, cursor, runs)[i] in rows && Fetches(rows, cursor, runs)[i].id > cursor
    ensures forall i, j :: 0 <= i < j < |Fetches(rows, cursor, runs)| ==>
      Fetches(rows, cursor, runs)[i].id < Fetches(rows, cursor, runs)[j].id
    decreases runs
  {
    if runs > 0 && NextRow(rows, cursor).Some? {
      var row := NextRow(rows, cursor).value;
      var rest := Fetches(rows, row.id, runs - 1);
      FetchesIncrease(rows, row.id, runs - 1);
      assert Fetches(rows, cursor, runs) == [row] + rest;
    }
  }

  /** Successive runs skip no id: the id of every row whose id lies between
      the starting cursor and the id of the last row fetched is the id of a
      fetched row. */
  lemma {:induction false} FetchesSkipNothing(rows: seq<Row>, cursor: int, runs: nat)
    ensures forall k ::
      (0 <= k < |rows| && |Fetches(rows, cursor, runs)| > 0 &&
       cursor < rows[k].id <= Fetches(rows, cursor, runs)[|Fetches(rows, cursor, runs)| - 1].id) ==>
      exists i :: 0 <= i < |Fetches(rows, cursor, runs)| && Fetches(rows, cursor, runs)[i].id == rows[k].id
    decreases runs
  {
    if runs > 0 && NextRow(rows, cursor).Some? {
      var row := NextRow(rows, cursor).value;
      var rest := Fetches(rows, row.id, runs - 1);
      var all := Fetches(rows, cursor, runs);
      assert all == [row] + rest;
      FetchesSkipNothing(rows, row.id, runs - 1);
      FetchesIncrease(rows, row.id, runs - 1);
      forall k | 0 <= k < |rows| && cursor < rows[k].id <= all[|all| - 1].id
        ensures exists i :: 0 <= i < |all| && all[i].id == rows[k].id
      {
        if rows[k].id == row.id {
          assert all[0].id == rows[k].id;
        } else {
          assert rows[k].id > row.id;
          assert rest != [] && rest[|rest| - 1] == all[|all| - 1];
          var i :| 0 <= i < |rest| && rest[i].id == rows[k].id;
          assert all[i + 1].id == rows[k].id;
        }
      }
    }
  }

  /** The texts of a list of rows, in order. */
  function Texts(rs: seq<Row>): (ts: seq<string>)
    ensures |ts| == |rs| && forall i :: 0 <= i < |rs| ==> ts[i] == rs[i].text
  {
    seq(|rs|, i requires 0 <= i < |rs| => rs[i].text)
  }

  /** `runs` successive invocations against the same table, each reading the
      cursor file the previous one left: the texts fetched are those of
      `Fetches`, and the file ends at the id of the last row fetched. An
      unreadable file stops every run, and stays as it is. */
  method FetchRuns(file: CursorFile, rows: seq<Row>, runs: nat) returns (texts: seq<string>)
    modifies file
    ensures old(file.StoredCursor()).None? ==>
      texts == [] && file.present == old(file.present) && file.contents == old(file.contents)
    ensures old(file.StoredCursor()).Some? ==>
      var fetched := Fetches(rows, old(file.StoredCursor()).value, runs);
      texts == Texts(fetched) &&
      file.StoredCursor() == (if fetched == [] then old(file.StoredCursor()) else Some(fetched[|fetched| - 1].id))
    decreases runs
  {
    texts := [];
    if runs == 0 {
      return;
    }
    ghost var start := file.StoredCursor();
    var r := file.FetchNextEntry(rows);
    var more: nat := runs - 1;
    if r.Entry? {
      ghost var row := NextRow(rows, start.value).value;
      var later := FetchRuns(file, rows, more);
      FetchesStep(rows, start.value, runs, more);
      FetchesCons(row, Fetches(rows, row.id, more));
      texts := [r.text] + later;
    } else if r.NoNewEntry? {
      FetchesStep(rows, start.value, runs, more);
    }
  }

  /** One run more: the next row, if there is one, followed by what the
      remaining runs fetch from its id; no row at all when there is none. */
  lemma FetchesStep(rows: seq<Row>, cursor: int, runs: nat, more: nat)
    requires runs == more + 1
    ensures NextRow(rows, cursor).None? ==> Fetches(rows, cursor, runs) == []
    ensures NextRow(rows, cursor).Some? ==>
      Fetches(rows, cursor, runs) == [NextRow(rows, cursor).value] + Fetches(rows, NextRow(rows, cursor).value.id, more)
  {
    assert runs - 1 == more;
  }

  lemma FetchesCons(row: Row, rest: seq<Row>)
    ensures Texts([row] + rest) == [row.text] + Texts(rest)
    ensures ([row] + rest)[|[row] + rest| - 1].id == if rest == [] then row.id else rest[|rest| - 1].id
  {
  }
}

=== FILE: decimal.dfy ===
/**
  The cursor file's format: the cursor is written with Python's `str(id)`
  and read back with `int(contents.strip())`.
 */
module Decimal {
  import opened Wrappers
  import opened Text

  predicate IsDigit(c: char) {
    '0' <= c <= '9'
  }

  function DigitChar(d: nat): (c: char)
    requires d < 10
    ensures IsDigit(c)
  {
    (d + '0' as int) as char
  }

  /** Decimal digits of `n` without leading zeros. */
  function NatToString(n: nat): string
    decreases n
  {
    if n < 10 then [DigitChar(n)] else NatToString(n / 10) + [DigitChar(n % 10)]
  }

  /** `str(n)`. */
  function IntToString(n: int): string {
    if n < 0 then "-" + NatToString(-n) else NatToString(n)
  }

  /** The digit part accepted by `int(s)` in base 10: ASCII digits, where a
      single underscore may stand between two digits. */
  predicate IsDigitString(s: string) {
    |s| > 0 && IsDigit(s[0]) && IsDigit(s[|s| - 1]) &&
    forall i :: 0 <= i < |s| ==> IsDigit(s[i]) || (s[i] == '_' && i + 1 < |s| && IsDigit(s[i + 1]))
  }

  /** The number the digits of `s` spell, underscores skipped. */
  function DigitsValue(s: string): nat {
    if s == [] then 0
    else if IsDigit(s[|s| - 1]) then 10 * DigitsValue(s[..|s| - 1]) + (s[|s| - 1] as int - '0' as int)
    else DigitsValue(s[..|s| - 1])
  }

  /** `int(s)` applied to text that is already stripped of surrounding
      whitespace, as every caller does: `None` where Python raises
      `ValueError`. An optional sign precedes the digits; a value is produced
      only for well-formed text. */
  function ParseInt(s: string): (r: Option<int>)
    ensures r.Some? ==> |s| > 0 && (IsDigit(s[0]) || s[0] == '+' || s[0] == '-')
    ensures r.Some? && r.value < 0 ==> s[0] == '-'
  {
    if |s| > 0 && (s[0] == '+' || s[0] == '-') then
      if IsDigitString(s[1..]) then
        Some(if s[0] == '-' then -(DigitsValue(s[1..]) as int) else DigitsValue(s[1..]))
      else None
    else if IsDigitString(s) then Some(DigitsValue(s))
    else None
  }

  lemma {:induction false} NatToStringDigits(n: nat)
    ensures |NatToString(n)| > 0
    ensures forall i :: 0 <= i < |NatToString(n)| ==> IsDigit(NatToString(n)[i])
    ensures DigitsValue(NatToString(n)) == n
    decreases n
  {
    if n >= 10 {
      NatToStringDigits(n / 10);
      var s := NatToString(n);
      assert s[..|s| - 1] == NatToString(n / 10);
    }
  }

  lemma SignOrDigitIsNotWhitespace(c: char)
    requires IsDigit(c) || c == '-'
    ensures !IsWhitespace(c)
  {
  }

  lemma ParseDigits(m: nat)
    ensures ParseInt(NatToString(m)) == Some(m)
    ensures ParseInt("-" + NatToString(m)) == Some(-(m as int))
  {
    var digits := NatToString(m);
    NatToStringDigits(m);
    assert IsDigitString(digits);
    assert ("-" + digits)[1..] == digits;
  }

  /** The cursor file round trip: what `str(id)` writes, `int(contents.strip())`
      reads back as the same id, for every integer id. */
  lemma CursorRoundTrip(n: int)
    ensures ParseInt(Strip(IntToString(n))) == Some(n)
  {
    var m: nat := if n < 0 then -n else n;
    ParseDigits(m);
    NatToStringDigits(m);
    var s := IntToString(n);
    SignOrDigitIsNotWhitespace(s[0]);
    SignOrDigitIsNotWhitespace(s[|s| - 1]);
  }

  /** A cursor file whose number is surrounded by whitespace, such as a
      trailing newline, still reads back as that number. */
  lemma CursorPaddedRoundTrip(before: string, n: int, after: string)
    requires forall k :: 0 <= k < |before| ==> IsWhitespace(before[k])
    requires forall k :: 0 <= k < |after| ==> IsWhitespace(after[k])
    ensures ParseInt(Strip(before + IntToString(n) + after)) == Some(n)
  {
    var m: nat := if n < 0 then -n else n;
    NatToStringDigits(m);
    var s := IntToString(n);
    SignOrDigitIsNotWhitespace(s[0]);
    SignOrDigitIsNotWhitespace(s[|s| - 1]);
    StripPadded(before, s, after);
    CursorRoundTrip(n);
  }

  /** An empty or whitespace-only cursor file is not a number: Python's
      `int('')` raises. */
  lemma BlankIsNotANumber(s: string)
    requires forall i :: 0 <= i < |s| ==> IsWhitespace(s[i])
    ensures ParseInt(Strip(s)) == None
  {
  }
}

=== FILE: quota.dfy ===
/**
  The posting quota: at most 50 posts in the last 24 hours, judged from the
  creation times of the account's timeline. Timestamps are whole seconds.
 */
module Quota {

  /** One day, `timedelta(days=1)`, in seconds. */
  const Day := 86400

  /** The number of posts allowed in the last 24 hours. */
  const PostLimit := 50

  /** The creation times in `timeline` strictly later than `now - Day`, in order. */
  function Recent(timeline: seq<int>, now: int): (r: seq<int>)
    ensures |r| <= |timeline|
    ensures forall t :: t in r <==> t in timeline && t > now - Day
    ensures |r| == |timeline| <==> forall i :: 0 <= i < |timeline| ==> timeline[i] > now - Day
    ensures r == [] <==> forall i :: 0 <= i < |timeline| ==> timeline[i] <= now - Day
  {
    if timeline == [] then []
    else if timeline[0] > now - Day then [timeline[0]] + Recent(timeline[1..], now)
      else Recent(timeline[1..], now)
  }

  /** Each time strictly after `now - Day` is kept as often as `timeline`
      holds it, and no other time is kept. */
  lemma {:induction false} RecentOccurrences(timeline: seq<int>, now: int)
    ensures forall t :: multiset(Recent(timeline, now))[t] == if t > now - Day then multiset(timeline)[t] else 0
    decreases |timeline|
  {
    if timeline != [] {
      var head, tail := timeline[0], timeline[1..];
      assert timeline == [head] + tail;
      RecentOccurrences(tail, now);
      if head > now - Day {
        assert Recent(timeline, now) == [head] + Recent(tail, now);
      } else {
        assert Recent(timeline, now) == Recent(tail, now);
      }
    }
  }

  /** The positions of `timeline` that hold a time strictly later than `now - Day`. */
  function RecentPositions(timeline: seq<int>, now: int): set<int> {
    set i | 0 <= i < |timeline| && timeline[i] > now - Day
  }

  /** Filtering distributes over concatenation. */
  lemma {:induction false} RecentAppend(a: seq<int>, b: seq<int>, now: int)
    ensures Recent(a + b, now) == Recent(a, now) + Recent(b, now)
    decreases |a|
  {
    if a == [] {
      assert a + b == b;
    } else {
      assert (a + b)[1..] == a[1..] + b;
      RecentAppend(a[1..], b, now);
    }
  }

  /** The recent times are as many as the positions holding a time after `now - Day`. */
  lemma {:induction false} RecentCount(timeline: seq<int>, now: int)
    ensures |Recent(timeline, now)| == |RecentPositions(timeline, now)|
    decreases |timeline|
  {
    if timeline != [] {
      var init, last := timeline[..|timeline| - 1], timeline[|timeline| - 1];
      assert timeline == init + [last];
      RecentAppend(init, [last], now);
      RecentCount(init, now);
      PositionsSnoc(init, last, now);
    }
  }

  /** The recent positions of a timeline with one more time at its end. */
  lemma PositionsSnoc(init: seq<int>, last: int, now: int)
    ensures last > now - Day ==>
      RecentPositions(init + [last], now) == RecentPositions(init, now) + {|init|} &&
      |RecentPositions(init + [last], now)| == |RecentPositions(init, now)| + 1 &&
      Recent([last], now) == [last]
    ensures last <= now - Day ==>
      RecentPositions(init + [last], now) == RecentPositions(init, now) && Recent([last], now) == []
  {
    var t := init + [last];
    assert forall i :: 0 <= i < |init| ==> t[i] == init[i];
    assert |init| !in RecentPositions(init, now);
  }

  /** `calculate_tweets_made_in_last_24_hours`: the number of timeline
      entries created strictly after `now - Day`. */
  function TweetsMadeInLast24Hours(timeline: seq<int>, now: int): (n: nat)
    ensures n == |set i | 0 <= i < |timeline| && timeline[i] > now - Day|
    ensures n <= |timeline|
    ensures n == 0 <==> forall i :: 0 <= i < |timeline| ==> timeline[i] <= now - Day
    ensures n == |timeline| <==> forall i :: 0 <= i < |timeline| ==> timeline[i] > now - Day
  {
    RecentCount(timeline, now);
    |Recent(timeline, now)|
  }

  /** The earliest of a non-empty list of times. */
  function Oldest(s: seq<int>): (m: int)
    requires s != []
    ensures m in s && forall i :: 0 <= i < |s| ==> m <= s[i]
  {
    if |s| == 1 then s[0]
    else
      var m := Oldest(s[1..]);
      if s[0] <= m then s[0] else m
  }

  /** `calculate_time_until_post_limit_reset`: the seconds until the oldest post
      of the last 24 hours leaves the window, or 0 when there is none. */
  function TimeUntilPostLimitReset(timeline: seq<int>, now: int): (r: int)
    ensures (forall i :: 0 <= i < |timeline| ==> timeline[i] <= now - Day) ==> r == 0
    ensures (exists i :: 0 <= i < |timeline| && timeline[i] > now - Day) ==>
      0 < r &&
      exists i :: 0 <= i < |timeline| && timeline[i] > now - Day && r == timeline[i] + Day - now &&
        forall j :: 0 <= j < |timeline| && timeline[j] > now - Day ==> timeline[i] <= timeline[j]
    ensures (forall i :: 0 <= i < |timeline| ==> timeline[i] <= now) ==> r <= Day
  {
    var recent := Recent(timeline, now);
    if recent == [] then 0
    else
      OldestRecent(timeline, now);
      Oldest(recent) + Day - now
  }

  /** The oldest recent time is a timeline entry no later than any other recent one. */
  lemma OldestRecent(timeline: seq<int>, now: int)
    requires Recent(timeline, now) != []
    ensures exists i :: 0 <= i < |timeline| && timeline[i] == Oldest(Recent(timeline, now))
    ensures Oldest(Recent(timeline, now)) > now - Day
    ensures forall j :: 0 <= j < |timeline| && timeline[j] > now - Day ==> Oldest(Recent(timeline, now)) <= timeline[j]
  {
    var recent := Recent(timeline, now);
    var oldest := Oldest(recent);
    assert oldest in timeline;
    forall j | 0 <= j < |timeline| && timeline[j] > now - Day
      ensures oldest <= timeline[j]
    {
      assert timeline[j] in timeline;
      var k :| 0 <= k < |recent| && recent[k] == timeline[j];
    }
  }

  /** The account the bot posts to; `posted` is every status it has sent, in order. */
  class Account {
    var posted: seq<string>

    constructor (posted: seq<string>)
      ensures this.posted == posted
    {
      this.posted := posted;
    }

    /** `tweet_chunks`: all chunks, in order, when fewer than `PostLimit` posts
        were made in the last 24 hours; otherwise none. */
    method TweetChunks(chunks: seq<string>, timeline: seq<int>, now: int)
      modifies this
      ensures TweetsMadeInLast24Hours(timeline, now) < PostLimit ==> posted == old(posted) + chunks
      ensures TweetsMadeInLast24Hours(timeline, now) >= PostLimit ==> posted == old(posted)
    {
      var tweetCount := TweetsMadeInLast24Hours(timeline, now);
      if tweetCount < PostLimit {
        for i := 0 to |chunks|
          invariant posted == old(posted) + chunks[..i]
        {
          posted := posted + [chunks[i]];
          assert chunks[..i + 1] == chunks[..i] + [chunks[i]];
        }
        assert chunks[..|chunks|] == chunks;
      }
    }
  }
}

=== FILE: text.dfy ===
/**
  The string primitives the bot relies on: Python's notion of whitespace,
  `str.split()` with no argument, `str.strip()` with no argument, and the
  single-space join that the chunker builds its chunks with.
 */
module Text {

  /** The characters for which Python's `str.isspace()` holds: those with
      Unicode bidirectional class WS, B or S, or general category Zs. */
  const WhitespaceChars: set<char> := {
    '\t', '\n', '\U{B}', '\U{C}', '\r', '\U{1C}', '\U{1D}', '\U{1E}', '\U{1F}', ' ',
    '\U{85}', '\U{A0}', '\U{1680}',
    '\U{2000}', '\U{2001}', '\U{2002}', '\U{2003}', '\U{2004}', '\U{2005}',
    '\U{2006}', '\U{2007}', '\U{2008}', '\U{2009}', '\U{200A}',
    '\U{2028}', '\U{2029}', '\U{202F}', '\U{205F}', '\U{3000}'}

  predicate IsWhitespace(c: char) {
    c in WhitespaceChars
  }

  /** A word as `str.split()` produces it: non-empty, free of whitespace. */
  predicate IsWord(w: string) {
    |w| > 0 && forall i :: 0 <= i < |w| ==> !IsWhitespace(w[i])
  }

  predicate AllWords(ws: seq<string>) {
    forall i :: 0 <= i < |ws| ==> IsWord(ws[i])
  }

  /** Length of the longest prefix of `s` that holds no whitespace. */
  function RunLength(s: string): (n: nat)
    ensures n <= |s|
  {
    if s == [] || IsWhitespace(s[0]) then 0 else 1 + RunLength(s[1..])
  }

  /** The run is as long as it can be: whitespace-free, and stopped only by
      whitespace or the end of the string. */
  lemma {:induction false} RunLengthMaximal(s: string)
    ensures forall i :: 0 <= i < RunLength(s) ==> !IsWhitespace(s[i])
    ensures RunLength(s) < |s| ==> IsWhitespace(s[RunLength(s)])
    decreases |s|
  {
    if s != [] && !IsWhitespace(s[0]) {
      RunLengthMaximal(s[1..]);
    }
  }

  /** `s.split()`: the maximal runs of non-whitespace characters, in order. */
  function Words(s: string): seq<string>
    decreases |s|
  {
    if s == [] then []
    else if IsWhitespace(s[0]) then Words(s[1..])
    else [s[..RunLength(s)]] + Words(s[RunLength(s)..])
  }

  /** Every word `split()` returns is non-empty and free of whitespace. */
  lemma {:induction false} WordsAreWords(s: string)
    ensures AllWords(Words(s))
    decreases |s|
  {
    if s != [] {
      if IsWhitespace(s[0]) {
        WordsAreWords(s[1..]);
      } else {
        RunLengthMaximal(s);
        WordsAreWords(s[RunLength(s)..]);
      }
    }
  }

  /** `" ".join(ws)`, built from the right as the chunker builds a chunk. */
  function Join(ws: seq<string>): string
  {
    if |ws| == 0 then ""
    else if |ws| == 1 then ws[0]
    else Join(ws[..|ws| - 1]) + " " + ws[|ws| - 1]
  }

  /** Where `s.lstrip()` starts when whitespace is skipped from index `i`:
      the first index at or after `i` that holds no whitespace, or `|s|`. */
  function SkipWhitespace(s: string, i: nat): (n: nat)
    requires i <= |s|
    ensures i <= n <= |s|
    ensures forall k :: i <= k < n ==> IsWhitespace(s[k])
    ensures n == |s| || !IsWhitespace(s[n])
    decreases |s| - i
  {
    if i < |s| && IsWhitespace(s[i]) then SkipWhitespace(s, i + 1) else i
  }

  /** Where `s.rstrip()` ends when whitespace is dropped from before index
      `j`, going no lower than `lo`. */
  function TrimWhitespace(s: string, lo: nat, j: nat): (n: nat)
    requires lo <= j <= |s|
    ensures lo <= n <= j
    ensures forall k :: n <= k < j ==> IsWhitespace(s[k])
    ensures n == lo || !IsWhitespace(s[n - 1])
    decreases j
  {
    if j > lo && IsWhitespace(s[j - 1]) then TrimWhitespace(s, lo, j - 1) else j
  }

  /** `s.strip()`: `s` with its leading and trailing whitespace removed and
      nothing else; the result neither starts nor ends with whitespace, and a
      string that already does neither is returned as it is. */
  function Strip(s: string): (r: string)
    ensures exists i, j :: (0 <= i <= j <= |s| && r == s[i..j] &&
      (forall k :: 0 <= k < i ==> IsWhitespace(s[k])) &&
      (forall k :: j <= k < |s| ==> IsWhitespace(s[k])))
    ensures r == [] || (!IsWhitespace(r[0]) && !IsWhitespace(r[|r| - 1]))
    ensures (s == [] || (!IsWhitespace(s[0]) && !IsWhitespace(s[|s| - 1]))) ==> r == s
  {
    var i := SkipWhitespace(s, 0);
    var j := TrimWhitespace(s, i, |s|);
    assert i < j ==> s[i..j][0] == s[i] && s[i..j][j - i - 1] == s[j - 1];
    assert forall k :: j <= k < |s| ==> IsWhitespace(s[k]) by {
      assert i == |s| || !IsWhitespace(s[i]);
    }
    assert s[0..|s|] == s;
    s[i..j]
  }

  /** `strip()` removes whitespace padding on both sides of a non-empty
      string that neither starts nor ends with whitespace, and gives that
      string back. */
  lemma StripPadded(before: string, s: string, after: string)
    requires forall k :: 0 <= k < |before| ==> IsWhitespace(before[k])
    requires forall k :: 0 <= k < |after| ==> IsWhitespace(after[k])
    requires s != [] && !IsWhitespace(s[0]) && !IsWhitespace(s[|s| - 1])
    ensures Strip(before + s + after) == s
  {
    var t := before + s + after;
    var lo, hi := |before|, |before| + |s|;
    assert forall k :: 0 <= k < lo ==> t[k] == before[k];
    assert forall k :: hi <= k < |t| ==> t[k] == after[k - hi];
    assert t[lo] == s[0] && t[hi - 1] == s[|s| - 1];
    var i := SkipWhitespace(t, 0);
    assert i == lo;
    var j := TrimWhitespace(t, i, |t|);
    assert j == hi;
    assert t[lo..hi] == s;
  }

  /** `split()` finds no word exactly when the string is empty or all whitespace. */
  lemma {:induction false} WordsEmpty(s: string)
    ensures Words(s) == [] <==> forall i :: 0 <= i < |s| ==> IsWhitespace(s[i])
    decreases |s|
  {
    if s != [] && IsWhitespace(s[0]) {
      WordsEmpty(s[1..]);
      assert forall i :: 1 <= i < |s| ==> s[i] == s[1..][i - 1];
    }
  }

  lemma {:induction false} RunLengthAppend(a: string, b: string)
    requires RunLength(a) < |a| || b == [] || IsWhitespace(b[0])
    ensures RunLength(a + b) == RunLength(a)
    decreases |a|
  {
    if a == [] {
      assert a + b == b;
    } else if !IsWhitespace(a[0]) {
      assert (a + b)[1..] == a[1..] + b;
      RunLengthAppend(a[1..], b);
    }
  }

  /** Splitting distributes over a concatenation whose seam is whitespace. */
  lemma {:induction false} WordsAppend(a: string, b: string)
    requires a == [] || b == [] || IsWhitespace(a[|a| - 1]) || IsWhitespace(b[0])
    ensures Words(a + b) == Words(a) + Words(b)
    decreases |a|
  {
    if a == [] {
      assert a + b == b;
    } else if b == [] {
      assert a + b == a;
    } else if IsWhitespace(a[0]) {
      var rest := a[1..];
      assert rest == [] || rest[|rest| - 1] == a[|a| - 1];
      WordsAppend(rest, b);
      WordsAppendSpace(a, b);
    } else {
      var rest := a[RunLength(a)..];
      assert rest == [] || rest[|rest| - 1] == a[|a| - 1];
      RunLengthMaximal(a);
      RunLengthAppend(a, b);
      WordsAppend(rest, b);
      WordsAppendWord(a, b);
    }
  }

  /** The step of WordsAppend where `a` starts with whitespace. */
  lemma WordsAppendSpace(a: string, b: string)
    requires a != [] && IsWhitespace(a[0])
    requires Words(a[1..] + b) == Words(a[1..]) + Words(b)
    ensures Words(a + b) == Words(a) + Words(b)
  {
    assert (a + b)[1..] == a[1..] + b;
  }

  /** The step of WordsAppend where `a` starts with a word that ends inside `a`. */
  lemma WordsAppendWord(a: string, b: string)
    requires a != [] && !IsWhitespace(a[0])
    requires RunLength(a + b) == RunLength(a)
    requires Words(a[RunLength(a)..] + b) == Words(a[RunLength(a)..]) + Words(b)
    ensures Words(a + b) == Words(a) + Words(b)
  {
    var k := RunLength(a);
    var ab := a + b;
    assert ab[0] == a[0];
    WordsStartingWithWord(ab);
    WordsStartingWithWord(a);
    SliceAppend(a, b, k);
    calc {
      Words(ab);
      [ab[..k]] + Words(ab[k..]);
      [a[..k]] + Words(a[k..] + b);
      [a[..k]] + (Words(a[k..]) + Words(b));
      ([a[..k]] + Words(a[k..])) + Words(b);
      Words(a) + Words(b);
    }
  }

  lemma WordsStartingWithWord(s: string)
    requires s != [] && !IsWhitespace(s[0])
    ensures Words(s) == [s[..RunLength(s)]] + Words(s[RunLength(s)..])
  {
  }

  lemma SliceAppend(a: string, b: string, k: nat)
    requires k <= |a|
    ensures (a + b)[..k] == a[..k] && (a + b)[k..] == a[k..] + b
  {
  }

  lemma WordsOfWord(w: string)
    requires IsWord(w)
    ensures Words(w) == [w]
  {
    RunLengthMaximal(w);
    assert RunLength(w) == |w|;
    assert w[..|w|] == w;
  }

  lemma JoinSingle(w: string)
    ensures Join([w]) == w
  {
  }

  /** Join of non-empty words is non-empty, starts with the first word and ends with the last. */
  lemma {:induction false} JoinEnds(ws: seq<string>)
    requires AllWords(ws) && ws != []
    ensures |Join(ws)| >= |ws[0]| && Join(ws)[..|ws[0]|] == ws[0]
    ensures |Join(ws)| >= |ws[|ws| - 1]| && Join(ws)[|Join(ws)| - |ws[|ws| - 1]|..] == ws[|ws| - 1]
    decreases |ws|
  {
    if |ws| > 1 {
      var init := ws[..|ws| - 1];
      JoinEnds(init);
      assert init[0] == ws[0];
      assert Join(ws) == Join(init) + " " + ws[|ws| - 1];
    }
  }

  /** Appending one word to a single-spaced line. */
  lemma JoinSnoc(ws: seq<string>, w: string)
    requires AllWords(ws)
    ensures ws == [] ==> Join(ws + [w]) == w
    ensures ws != [] ==> Join(ws) != "" && Join(ws + [w]) == Join(ws) + " " + w
  {
    if ws != [] {
      JoinEnds(ws);
      assert (ws + [w])[..|ws + [w]| - 1] == ws;
    }
  }

  /** Round trip: splitting a single-spaced line of words gives the words back. */
  lemma {:induction false} WordsOfJoin(ws: seq<string>)
    requires AllWords(ws)
    ensures Words(Join(ws)) == ws
    decreases |ws|
  {
    if |ws| == 1 {
      WordsOfWord(ws[0]);
    } else if |ws| > 1 {
      var init, last := ws[..|ws| - 1], ws[|ws| - 1];
      WordsOfJoin(init);
      WordsAppend(Join(init), " ");
      WordsAppend(Join(init) + " ", last);
      WordsOfWord(last);
      assert Words(" ") == Words(" "[1..]);
      assert ws == init + [last];
    }
  }
}

=== FILE: wrappers.dfy ===
/** The optional value used wherever the bot's Python code returns a value or `None`. */
module Wrappers {

  datatype Option<+T> = None | Some(value: T)
}
